=== FILE: README.md ===
# intro_meta_ruby in Dafny

A functional model of six small Ruby teaching scripts. Each script shows one
metaprogramming trick. The model keeps what each trick does and drops the
reflection that does it:

- `calc.rb`: an operator string is checked against the closed set
  `+ - / *`. Only then is it sent to the left operand. Integer `/` is floor
  division. A zero divisor raises ZeroDivisionError. Any other operator
  raises "unknown operator".
- `array_ex.rb`: `Array#hello` returns a constant greeting. `Array#foldl` is
  `inject(0)` with a nil-guard, so it is a left fold seeded at 0. The guard
  never fires for integers. `Array#first` returns the last element.
- `greeter.rb`: a `Greeter` has a read-only `salutation`. Its
  `method_missing` answers any `hello_<suffix>` call by printing
  "<salutation> <suffix>!". On any other name it calls `super`, so the call
  raises NoMethodError.
- `fruit_basket.rb` and `shuxing.rb`: class-level generators define a
  reader and a writer per declared field. Both work on one instance
  variable. `fruits` appends "s" to the field name; `wo_de_shuxing` keeps
  the name as declared. `SorryBasket` and the generated `Student` are
  instances of them. A generated method raises NameError when it is called
  and its instance-variable name is not "@" followed by an identifier.
  `missed_date_basket.rambutan = 30` raises NoMethodError, because nothing in
  `fruit_basket.rb` defines `rambutan=` or intercepts undefined methods.
- `student.rb`: the same `Student` written with `attr_accessor`. It is proved
  observably equivalent to the generated one.

Modules:

- `Wrappers` (wrappers.dfy): `Option`, `Result` and the exceptions.
- `Ruby` (ruby.dfy): values (`nil`, Integer, String), `Integer#to_s`, the
  `to_s` used by interpolation, and a `Transcript`. A transcript holds the
  lines a script prints and the exception that stops it.
- `Calc`, `ArrayEx`, `Greeting`, `FruitBasket`, `Shuxing` and
  `StaticStudent`: one module per script. Each has a `Script` member that
  replays the script's top-level statements.
- `Accessors`: the generator shared by `fruit_basket.rb` and `shuxing.rb`.
  A class is a method table from method name to `Reader(slot)` or
  `Writer(slot)`. An object is a map from instance-variable name to value.

Method calls become explicit dispatch functions (`Get` for a call without
arguments, `Set` for a call with one). `send`, `define_method`,
`instance_variable_get/set` and `method_missing` become lookups in these
tables and maps. `puts` becomes the returned transcript.

Where the code and its comments disagree, the model follows the code:
`foldl('+')` over 1..10 is 55, as `array_ex.rb:9` computes it. The `#=> 56`
comment on `array_ex.rb:24` disagrees with that line.

## Model

| member | source | states |
|---|---|---|
| Ruby.IntToString | calc.rb:6 | `puts` of an integer prints a minus sign exactly for negative numbers, followed by at least one decimal digit and only digits, with no leading zero unless the integer is 0 |
| Ruby.Render | shuxing.rb:23 | interpolation renders nil as "", an Integer as `Integer#to_s` and a String as itself; the result is empty exactly for nil and the empty string |
| Ruby.NatToString | calc.rb:6 | a non-negative integer prints as decimal digits only, with no leading zero unless it is 0 |
| Ruby.IntToStringRoundTrip | calc.rb:6 | reading back the printed digits after the sign gives the magnitude, so the printed text is the integer's decimal form |
| Ruby.NatToStringRoundTrip | calc.rb:6 | reading the printed digits back gives the integer printed |
| Calc.ParseOp | calc.rb:2 | an operator string is accepted exactly when it is one of `+ - / *`, and the operator accepted is the one that symbol names |
| Calc.ParseSymbol | calc.rb:2 | each of the four operators is accepted from its own symbol |
| Calc.FloorDiv | calc.rb:3 | integer `/` rounds toward negative infinity: the remainder has the divisor's sign and is smaller than it in magnitude |
| Calc.FloorQuotientUnique | calc.rb:3 | at most one quotient meets that rounding rule, so the quotient is fully determined |
| Calc.FloorDivIsNotEuclidean | calc.rb:3 | `7 / -2` is -4 in Ruby where Euclidean division gives -3; `-7 / 2` is -4 in both |
| Calc.Apply | calc.rb:3 | sending an accepted operator raises exactly for `/` with a zero divisor, and that error is ZeroDivisionError; `/` otherwise yields the floor quotient |
| Calc.Calc | calc.rb:1-4 | any operator outside the four raises "unknown operator" and yields no number; `+ - *` give the sum, difference and product; `/` raises on zero and otherwise floors |
| Calc.ValidationIgnoresOperands | calc.rb:2-3 | whether an operator is rejected depends on the operator alone, never on the operand values |
| Calc.CalcExamples | calc.rb:6-7 | `calc(1,'+',1)` is 2; `calc(2,'%',3)` raises and returns no number at all |
| Calc.Script | calc.rb:6-7 | the script prints "2" and then stops with "unknown operator" |
| ArrayEx.Hello | array_ex.rb:3-5 | `hello` is "Hello, I'm an Array!" whatever the contents |
| ArrayEx.Foldl | array_ex.rb:8-10 | `inject(0)` with the nil-guard equals the plain left fold from 0; the loop invariant shows the accumulator is never nil, so the reset to 0 never happens |
| ArrayEx.FoldAddIsSum | array_ex.rb:9 | folding `+` gives the sum of the elements |
| ArrayEx.FoldSubIsNegatedSum | array_ex.rb:9 | folding `-` from the seed 0 gives minus the sum |
| ArrayEx.FoldMulIsZero | array_ex.rb:9 | folding `*` gives 0 for every array, because the seed is 0 |
| ArrayEx.FoldDivIsZeroOrRaises | array_ex.rb:9 | folding `/` gives 0, or raises ZeroDivisionError exactly when some element is 0 |
| ArrayEx.FoldEmpty | array_ex.rb:9 | the empty array folds to the seed 0 for every operator |
| ArrayEx.FoldOneToTen | array_ex.rb:21-24 | `foldl('+')` over 1..10 is 55 and not 56 |
| ArrayEx.First | array_ex.rb:12-14 | `Array#first` as redefined; its contract is stated by `FirstIsHeadOfReverse`: the last element, and nil exactly for the empty array |
| ArrayEx.FirstIsHeadOfReverse | array_ex.rb:12-14 | `first` answers what the reversed array has in front, which is the last element, and nil exactly for the empty array |
| ArrayEx.FirstOfOneToTen | array_ex.rb:25 | `first` of 1..10 is 10 while the real front element is 1 |
| ArrayEx.Script | array_ex.rb:21-25 | the script prints the greeting, 55 and 10 |
| Greeting.New | greeter.rb:5-7 | the constructor stores its argument as the salutation |
| Greeting.Lines | greeter.rb:10 | cutting a method name at newlines yields newline-free lines that join back to the name; these are the spans the anchors `^` and `$` delimit |
| Greeting.SingleLine | greeter.rb:10 | a name without a newline is a single line |
| Greeting.LinesAfterNewline | greeter.rb:10 | a newline ends the first line and the rest of the name is split on its own |
| Greeting.FirstMatch | greeter.rb:10 | the match is taken from the leftmost line that matches, and there is none exactly when no line matches |
| Greeting.HelloSuffix | greeter.rb:10 | a one-line name matches exactly when it is "hello_" followed by at least one character, and the capture is everything after the prefix; a capture is never empty |
| Greeting.SkipsNonMatchingLine | greeter.rb:10 | a first line that does not match is skipped and the search continues on the next line |
| Greeting.SuffixKeepsUnderscores | greeter.rb:10 | "hello_a_b" captures "a_b" |
| Greeting.MethodMissing | greeter.rb:9-17 | a one-line name yields output exactly when it matches; the output is salutation, space, suffix, "!"; anything else raises NoMethodError for that name |
| Greeting.Call | greeter.rb:2-19 | `salutation` answers the stored salutation; every other name goes through `method_missing`, so a non-matching name raises and is never silently ignored |
| Greeting.GreetingRoundTrip | greeter.rb:10-12 | calling `hello_` plus any non-empty one-line suffix prints the salutation, a space, exactly that suffix and "!" |
| Greeting.BareHelloRaises | greeter.rb:10-15 | the bare name "hello_" has an empty suffix and raises NoMethodError |
| Greeting.NotHelloName | greeter.rb:14-15 | a one-line name that does not start with "h" raises NoMethodError |
| Greeting.SalutationReadOnly | greeter.rb:3-6 | there is no `salutation=`, so the salutation stays the constructor's argument |
| Greeting.CallJim | greeter.rb:21-22 | "你好" with `hello_jim` prints "你好 jim!" |
| Greeting.CallPaul | greeter.rb:24-25 | "Habari" with `hello_paul` prints "Habari paul!" |
| Greeting.CallTim | greeter.rb:27 | `goodbye_tim` raises NoMethodError |
| Greeting.Script | greeter.rb:21-27 | the script prints the two greetings and then stops with NoMethodError for `goodbye_tim` |
| Accessors.GetterName | fruit_basket.rb:6 | the reader name of a field (with "s" appended by `fruits`, as declared by `wo_de_shuxing`); its contract is stated by `GetterNameInjective` |
| Accessors.GetterNameInjective | fruit_basket.rb:6 | distinct fields get distinct reader names |
| Accessors.SetterName | fruit_basket.rb:10 | the writer name of a field, its reader name followed by "="; its contract is stated by `SetterNameInjective` |
| Accessors.SetterNameInjective | fruit_basket.rb:10 | distinct fields get distinct writer names |
| Accessors.SlotName | fruit_basket.rb:7 | the instance variable of a field, "@" before its reader name; its contract is stated by `SlotNameInjective` |
| Accessors.SlotNameInjective | fruit_basket.rb:7 | distinct fields get distinct instance variables |
| Accessors.Define | fruit_basket.rb:3-15 | the generator adds exactly one reader name and one writer name per declared field and leaves every other method untouched |
| Accessors.DefineBindsFields | fruit_basket.rb:4-12 | when reader and writer names do not clash, each declared field's reader reads and its writer writes that field's own instance variable, whatever methods existed before |
| Accessors.GeneratesExactly | fruit_basket.rb:3-15 | a class answers a method name exactly when it is the reader or writer name of a declared field |
| Accessors.PluralisedUnambiguous | fruit_basket.rb:6-12 | `fruits` names never clash: readers end in "s" and writers in "=" |
| Accessors.VerbatimUnambiguous | shuxing.rb:7-13 | `wo_de_shuxing` names clash only when a field name itself ends in "=" |
| Accessors.Read | fruit_basket.rb:7 | the instance-variable store behind `instance_variable_get`, a never-assigned variable reading as nil; its contract is stated by `Write` and `FreshReadsNil` (the name check is made by `Get`) |
| Accessors.Write | fruit_basket.rb:11 | the store behind `instance_variable_set`: the value lands in its variable and every other variable is left as it was (the name check is made by `Set`) |
| Accessors.Get | fruit_basket.rb:6-8 | a call without arguments: a reader returns its instance variable or raises NameError when that name is invalid, a writer raises ArgumentError, an undefined name raises NoMethodError |
| Accessors.Set | fruit_basket.rb:10-12 | a call with one argument: a writer stores into its instance variable or raises NameError when that name is invalid, a reader raises ArgumentError, an undefined name raises NoMethodError |
| Accessors.FieldAccessors | shuxing.rb:7-13 | a declared field with a valid instance-variable name has a reader returning that variable and a writer storing into it |
| Accessors.GetAfterSet | fruit_basket.rb:7-11 | after a field with a valid instance-variable name is written, its reader returns the value written |
| Accessors.SetFrame | fruit_basket.rb:11 | writing one field leaves every other field's reader answering as before, an error included |
| Accessors.FreshReadsNil | fruit_basket.rb:7 | the reader of a never-assigned field with a valid instance-variable name returns nil |
| Accessors.InvalidSlotRaises | fruit_basket.rb:6-12 | a declared field whose instance-variable name is invalid raises NameError from both its reader and its writer |
| Accessors.QuestionMarkFieldRaises | shuxing.rb:7-9 | `wo_de_shuxing :ready?` defines `ready?`, and calling it raises NameError for `@ready?` |
| Accessors.UndeclaredRaises | fruit_basket.rb:3-15 | calling any name the generator did not define raises NoMethodError, with or without an argument |
| Accessors.SettersCommute | shuxing.rb:11-12 | writes to two different fields with valid instance-variable names succeed and give the same object in either order |
| FruitBasket.MethodsGenerated | fruit_basket.rb:21 | `fruits :lychee, :mango, :mangosteen` generates exactly `lychees`, `mangos` and `mangosteens`, each with its writer, on `@lychees`, `@mangos` and `@mangosteens` |
| FruitBasket.NewSorryBasket | fruit_basket.rb:23-27 | `SorryBasket.new(a,b,c)` makes the three readers return a, b and c in declaration order |
| FruitBasket.SlotsValid | fruit_basket.rb:21 | every instance variable of `SorryBasket`'s methods is a valid instance-variable name, so none of them raises NameError |
| FruitBasket.WriterFrame | fruit_basket.rb:10-12 | a basket writer stores its value and leaves the readers of the other instance variables unchanged |
| FruitBasket.FruitGetAfterSet | fruit_basket.rb:6-12 | for every fruit, the reader returns what its writer stored |
| FruitBasket.FruitSetFrame | fruit_basket.rb:6-12 | writing one fruit leaves the other fruits' readers unchanged |
| FruitBasket.MangosteensTo99 | fruit_basket.rb:31-37 | after `mangosteens = 99` the basket reads 36, 6 and 99 |
| FruitBasket.RambutanRaises | fruit_basket.rb:39 | `rambutan=` raises NoMethodError on any basket |
| FruitBasket.Script | fruit_basket.rb:31-39 | the script prints 36, 6 and 8 and then stops with NoMethodError for `rambutan=` |
| Shuxing.MethodsGenerated | shuxing.rb:19-20 | `wo_de_shuxing :name, :major, :dorm` generates exactly `name`, `major` and `dorm`, each with its writer, on `@name`, `@major` and `@dorm` |
| Shuxing.New | shuxing.rb:27 | a fresh `Student` has all three fields nil |
| Shuxing.Call | shuxing.rb:19-24 | a call without arguments: `to_s` gives the sentence, each reader gives its instance variable, a writer wants an argument, any other name raises NoMethodError |
| Shuxing.CallWith | shuxing.rb:19-24 | a call with one argument: each writer assigns its own instance variable, `to_s` and the readers reject the argument, any other name raises NoMethodError |
| Shuxing.ToS | shuxing.rb:22-24 | the class's `to_s`; its contract is stated by `ToSUsesReaders` and `RenderAssigned` |
| Shuxing.RenderAssigned | shuxing.rb:22-24 | once all three fields hold strings, `to_s` is those strings joined by the sentence's fixed words |
| Shuxing.ToSUsesReaders | shuxing.rb:22-24 | `to_s` renders what the three readers return, in the order name, major, dorm |
| Shuxing.AssignmentOrderIrrelevant | shuxing.rb:28-30 | assigning name, dorm and major in the script's order gives the same object as the declaration order |
| Shuxing.FreshToS | shuxing.rb:22-24 | a fresh `Student` renders as the fixed words alone, each nil field interpolating as "" |
| Shuxing.Script | shuxing.rb:27-33 | `puts tai` prints "太漂亮学生在学习计算机科学，住在东区Q座3楼409房" |
| StaticStudent.New | student.rb:9 | `Student.new`; its contract is stated by `FreshIsNil` and `FreshCorrespond` |
| StaticStudent.Get | student.rb:2-6 | a call without arguments; its contract is stated by `GetAfterSet`, `FreshIsNil` and `GettersAgree` |
| StaticStudent.Set | student.rb:2 | a call with one argument; its contract is stated by `GetAfterSet`, `SetFrame` and `SettersAgree` |
| StaticStudent.ToS | student.rb:4-6 | the class's `to_s`; its contract is stated by `RenderAssigned` and `ToSAgree` |
| StaticStudent.RenderAssigned | student.rb:4-6 | once all three fields hold strings, `to_s` is those strings joined by the sentence's fixed words |
| StaticStudent.FreshToS | student.rb:4-6 | a fresh `Student` renders as the fixed words alone, each nil field interpolating as "" |
| StaticStudent.GetAfterSet | student.rb:2 | each `attr_accessor` reader returns what its writer stored |
| StaticStudent.SetFrame | student.rb:2 | writing one field leaves the other two readers unchanged |
| StaticStudent.FreshIsNil | student.rb:9 | a fresh `Student` has all three fields nil |
| StaticStudent.GettersAgree | student.rb:2-6 | for every method name, `to_s` included, the generated class and the `attr_accessor` class answer the same call without arguments alike, errors included |
| StaticStudent.SettersAgree | student.rb:2-6 | for every method name and argument, both classes' one-argument calls succeed together or fail with the same error, and they leave corresponding objects |
| StaticStudent.ToSAgree | student.rb:4-6 | both `to_s` definitions render corresponding objects as the same string |
| StaticStudent.FreshCorrespond | student.rb:9 | fresh objects of the two classes correspond |
| StaticStudent.IndistinguishableFromGenerated | student.rb:1-7 | no sequence of calls tells the two classes apart: from corresponding objects they yield the same observations |
| StaticStudent.Script | student.rb:9-15 | `puts hao` prints "好朋友学生在学习计算机科学，住在西区C座9楼304房" |

## Left out

- Console output is not written anywhere. Each `Script` returns the printed
  lines as a `Transcript`.
- The `puts tai.inspect` and `puts hao.inspect` lines (shuxing.rb:32,
  student.rb:14) are not in the transcripts. They print runtime object
  addresses.
- The reflection machinery itself is not modelled: `define_method`, `send`,
  `instance_variable_get/set`, `method_missing` and `super`. Only their
  effect is, as table lookups.
- Monkey-patching `Array` for the whole process is not modelled. The three
  methods are functions over `seq<int>`.
- Operands are integers only. Floats and other numeric types are not
  modelled for `calc` or `foldl`.
- ArrayEx.Foldl: only the four calculator operators are accepted as the
  method name. Other Integer methods such as `%` or `**`, and names Integer
  does not respond to, are not modelled.
- ArrayEx.Hello: the class name is fixed as "Array". A subclass of `Array`
  would interpolate its own name.
- Accessors.Read, Accessors.Write: they accept any instance-variable name;
  the NameError for an invalid one is raised by `Get` and `Set`, which make
  the check before calling them. The rule used is "@" then a letter, "_" or
  non-ASCII character, then letters, digits, "_" or non-ASCII characters.
- Shuxing.Call, Shuxing.CallWith, Accessors.Get, Accessors.Set,
  Accessors.UndeclaredRaises, StaticStudent.Get, StaticStudent.Set: the methods every Ruby object inherits (`inspect`,
  `class`, `==`, `is_a?`, ...) are in no method table, so calling them raises
  NoMethodError here. `Accessors.Get` and `Accessors.Set` dispatch the
  generated accessors only; the `to_s` a class defines itself is dispatched
  first by `Shuxing.Call` and `Shuxing.CallWith`, and by `StaticStudent.Get`
  and `StaticStudent.Set`.
- Greeting.Call: every name other than `salutation` goes to
  `method_missing`. The other methods every Ruby object inherits (`to_s`,
  `inspect`, ...) are not modelled.
- The ArgumentError raised when a greeter method is called with arguments is
  not modelled. `Call` takes a method name only.
- The `$1` global set by the regex match is not modelled.
- Exception messages and process exit statuses are not modelled. Each
  exception is a bare `Error` variant.
- `Value` holds only `nil`, Integers and Strings. These are the values the
  scripts store. Ruby's `false` is not a `Value`, because no script stores
  it.
- ArgumentError for `SorryBasket.new` called with the wrong number of
  arguments is not modelled. `NewSorryBasket` always takes three values.

=== FILE: accessors.dfy ===
/** The effect of the class-level accessor generators (`FruitBasket.fruits`,
    `Shuxingable.wo_de_shuxing`): for each declared field a reader and a
    writer method, both backed by one instance variable, entered into the
    class's method table in declaration order. */
module Accessors {
  import opened Wrappers
  import opened Ruby

  /** How a field name becomes method and instance-variable names:
      `fruits` appends "s", `wo_de_shuxing` keeps the name as declared. */
  datatype Naming = Pluralised | Verbatim

  function GetterName(naming: Naming, field: string): string {
    match naming
    case Pluralised => field + "s"
    case Verbatim => field
  }

  function SetterName(naming: Naming, field: string): string {
    GetterName(naming, field) + "="
  }

  function SlotName(naming: Naming, field: string): string {
    "@" + GetterName(naming, field)
  }

  /** A character that may start an identifier: a letter, "_" or any
      non-ASCII character. */
  predicate IdentStart(c: char) {
    'a' <= c <= 'z' || 'A' <= c <= 'Z' || c == '_' || c as int > 127
  }

  /** A character that may continue an identifier. */
  predicate IdentChar(c: char) {
    IdentStart(c) || '0' <= c <= '9'
  }

  /** A name `instance_variable_get` and `instance_variable_set` accept: "@"
      followed by an identifier. Any other name makes them raise NameError. */
  predicate IsIvarName(s: string) {
    |s| >= 2 && s[0] == '@' && IdentStart(s[1]) && forall k :: 2 <= k < |s| ==> IdentChar(s[k])
  }

  /** A generated method: read or write one instance variable. */
  datatype Accessor = Reader(slot: string) | Writer(slot: string)

  type MethodTable = map<string, Accessor>

  /** The method names the generator defines for `fields`. */
  function Declared(naming: Naming, fields: seq<string>): set<string> {
    (set f | f in fields :: GetterName(naming, f)) + (set f | f in fields :: SetterName(naming, f))
  }

  /** No field's reader shares its name with another field's writer. */
  ghost predicate Unambiguous(naming: Naming, fields: seq<string>) {
    forall f, g :: f in fields && g in fields ==> GetterName(naming, f) != SetterName(naming, g)
  }

  /** Distinct fields get distinct reader names. */
  lemma GetterNameInjective(naming: Naming, f: string, g: string)
    ensures GetterName(naming, f) == GetterName(naming, g) ==> f == g
  {
    if naming == Pluralised {
      assert f == GetterName(naming, f)[..|f|];
      assert g == GetterName(naming, g)[..|g|];
    }
  }

  /** Distinct fields get distinct writer names. */
  lemma SetterNameInjective(naming: Naming, f: string, g: string)
    ensures SetterName(naming, f) == SetterName(naming, g) ==> f == g
  {
    assert GetterName(naming, f) == SetterName(naming, f)[..|SetterName(naming, f)| - 1];
    assert GetterName(naming, g) == SetterName(naming, g)[..|SetterName(naming, g)| - 1];
    GetterNameInjective(naming, f, g);
  }

  /** Distinct fields get distinct instance variables. */
  lemma SlotNameInjective(naming: Naming, f: string, g: string)
    ensures SlotName(naming, f) == SlotName(naming, g) ==> f == g
  {
    assert GetterName(naming, f) == SlotName(naming, f)[1..];
    assert GetterName(naming, g) == SlotName(naming, g)[1..];
    GetterNameInjective(naming, f, g);
  }

  lemma DeclaredCons(naming: Naming, fields: seq<string>)
    requires |fields| > 0
    ensures Declared(naming, fields)
            == Declared(naming, fields[1..]) + {GetterName(naming, fields[0]), SetterName(naming, fields[0])}
  {
    assert forall g :: g in fields <==> g == fields[0] || g in fields[1..];
  }

  /** `define_method` for each field in order, reader before writer; a later
      definition of a name replaces an earlier one. */
  function Define(naming: Naming, fields: seq<string>, table: MethodTable): (r: MethodTable)
    ensures r.Keys == table.Keys + Declared(naming, fields)
    ensures forall name :: name in table && name !in Declared(naming, fields) ==> r[name] == table[name]
    decreases |fields|
  {
    if |fields| == 0 then table
    else
      var f := fields[0];
      var slot := SlotName(naming, f);
      DeclaredCons(naming, fields);
      Define(naming, fields[1..], table[GetterName(naming, f) := Reader(slot)][SetterName(naming, f) := Writer(slot)])
  }

  /** When no reader and writer names clash, every declared field ends up
      with its own reader and writer on its own instance variable, whatever
      the table held before. */
  lemma {:induction false} DefineBindsFields(naming: Naming, fields: seq<string>, table: MethodTable, f: string)
    requires Unambiguous(naming, fields) && f in fields
    ensures GetterName(naming, f) in Define(naming, fields, table)
    ensures SetterName(naming, f) in Define(naming, fields, table)
    ensures Define(naming, fields, table)[GetterName(naming, f)] == Reader(SlotName(naming, f))
    ensures Define(naming, fields, table)[SetterName(naming, f)] == Writer(SlotName(naming, f))
    decreases |fields|
  {
    var h := fields[0];
    var slot := SlotName(naming, h);
    var next := table[GetterName(naming, h) := Reader(slot)][SetterName(naming, h) := Writer(slot)];
    assert Define(naming, fields, table) == Define(naming, fields[1..], next);
    assert Unambiguous(naming, fields[1..]);
    if f in fields[1..] {
      DefineBindsFields(naming, fields[1..], next, f);
    } else {
      assert f == h;
      forall g | g in fields[1..]
        ensures GetterName(naming, f) != GetterName(naming, g) && SetterName(naming, f) != SetterName(naming, g)
      {
        GetterNameInjective(naming, f, g);
        SetterNameInjective(naming, f, g);
      }
      assert GetterName(naming, f) !in Declared(naming, fields[1..]);
      assert SetterName(naming, f) !in Declared(naming, fields[1..]);
      assert GetterName(naming, f) != SetterName(naming, f);
    }
  }

  /** The methods a class has after declaring `fields`. */
  function Generate(naming: Naming, fields: seq<string>): MethodTable {
    Define(naming, fields, map[])
  }

  /** An object: its instance variables. An instance variable never assigned
      is absent and reads as `nil`. */
  datatype Instance = Instance(ivars: map<string, Value>)

  /** `instance_variable_get`. */
  function Read(o: Instance, slot: string): Value {
    if slot in o.ivars then o.ivars[slot] else Nil
  }

  /** `instance_variable_set`. */
  function Write(o: Instance, slot: string, v: Value): (o': Instance)
    ensures Read(o', slot) == v
    ensures forall s :: s != slot ==> Read(o', s) == Read(o, s)
  {
    Instance(o.ivars[slot := v])
  }

  /** Calling method `name` with no argument: a reader answers its instance
      variable, or raises NameError when that is no instance-variable name;
      a writer needs one argument; an unknown name raises NoMethodError. */
  function Get(table: MethodTable, o: Instance, name: string): (r: Result<Value>)
    ensures name !in table ==> r == Err(NoMethod(name))
    ensures name in table && table[name].Writer? ==> r == Err(WrongArguments(name))
    ensures name in table && table[name].Reader? ==>
              r == if IsIvarName(table[name].slot) then Ok(Read(o, table[name].slot))
                   else Err(InvalidName(table[name].slot))
  {
    if name !in table then Err(NoMethod(name))
    else
      match table[name]
      case Reader(slot) => if IsIvarName(slot) then Ok(Read(o, slot)) else Err(InvalidName(slot))
      case Writer(_) => Err(WrongArguments(name))
  }

  /** Calling method `name` with one argument `v`: a writer assigns its
      instance variable, or raises NameError when that is no
      instance-variable name; a reader takes no argument; an unknown name
      raises NoMethodError. */
  function Set(table: MethodTable, o: Instance, name: string, v: Value): (r: Result<Instance>)
    ensures name !in table ==> r == Err(NoMethod(name))
    ensures name in table && table[name].Reader? ==> r == Err(WrongArguments(name))
    ensures name in table && table[name].Writer? ==>
              r == if IsIvarName(table[name].slot) then Ok(Write(o, table[name].slot, v))
                   else Err(InvalidName(table[name].slot))
  {
    if name !in table then Err(NoMethod(name))
    else
      match table[name]
      case Reader(_) => Err(WrongArguments(name))
      case Writer(slot) => if IsIvarName(slot) then Ok(Write(o, slot, v)) else Err(InvalidName(slot))
  }

  /** The generator defines exactly a reader and a writer per declared field. */
  lemma GeneratesExactly(naming: Naming, fields: seq<string>, name: string)
    ensures name in Generate(naming, fields) <==>
              exists f :: f in fields && (name == GetterName(naming, f) || name == SetterName(naming, f))
  {
  }

  /** Readers end in "s" and writers in "=", so `fruits` never clashes. */
  lemma PluralisedUnambiguous(fields: seq<string>)
    ensures Unambiguous(Pluralised, fields)
  {
    forall f, g | f in fields && g in fields
      ensures GetterName(Pluralised, f) != SetterName(Pluralised, g)
    {
      var a := GetterName(Pluralised, f);
      var b := SetterName(Pluralised, g);
      assert a[|a| - 1] == 's';
      assert b[|b| - 1] == '=';
    }
  }

  /** `wo_de_shuxing` clashes only through a field name ending in "=". */
  lemma VerbatimUnambiguous(fields: seq<string>)
    requires forall f :: f in fields ==> |f| == 0 || f[|f| - 1] != '='
    ensures Unambiguous(Verbatim, fields)
  {
    forall f, g | f in fields && g in fields
      ensures GetterName(Verbatim, f) != SetterName(Verbatim, g)
    {
      var b := SetterName(Verbatim, g);
      assert b[|b| - 1] == '=';
    }
  }

  /** On a class whose names do not clash, a declared field's reader and
      writer act on that field's instance variable. */
  lemma FieldAccessors(naming: Naming, fields: seq<string>, o: Instance, f: string, v: Value)
    requires f in fields && Unambiguous(naming, fields) && IsIvarName(SlotName(naming, f))
    ensures Get(Generate(naming, fields), o, GetterName(naming, f)) == Ok(Read(o, SlotName(naming, f)))
    ensures Set(Generate(naming, fields), o, SetterName(naming, f), v) == Ok(Write(o, SlotName(naming, f), v))
  {
    DefineBindsFields(naming, fields, map[], f);
  }

  /** Reading a field after writing it answers the value written. */
  lemma GetAfterSet(naming: Naming, fields: seq<string>, o: Instance, f: string, v: Value)
    requires f in fields && Unambiguous(naming, fields) && IsIvarName(SlotName(naming, f))
    ensures Set(Generate(naming, fields), o, SetterName(naming, f), v).Ok?
    ensures Get(Generate(naming, fields), Set(Generate(naming, fields), o, SetterName(naming, f), v).value, GetterName(naming, f)) == Ok(v)
  {
    DefineBindsFields(naming, fields, map[], f);
  }

  /** Writing one field leaves every other field's reader answering what it
      answered before. */
  lemma SetFrame(naming: Naming, fields: seq<string>, o: Instance, f: string, g: string, v: Value)
    requires f in fields && g in fields && f != g && Unambiguous(naming, fields)
    requires IsIvarName(SlotName(naming, f))
    ensures Set(Generate(naming, fields), o, SetterName(naming, f), v).Ok?
    ensures Get(Generate(naming, fields), Set(Generate(naming, fields), o, SetterName(naming, f), v).value, GetterName(naming, g))
            == Get(Generate(naming, fields), o, GetterName(naming, g))
  {
    var t := Generate(naming, fields);
    var sf, sg := SlotName(naming, f), SlotName(naming, g);
    DefineBindsFields(naming, fields, map[], f);
    DefineBindsFields(naming, fields, map[], g);
    assert t[SetterName(naming, f)] == Writer(sf) && t[GetterName(naming, g)] == Reader(sg);
    SlotNameInjective(naming, f, g);
    assert Read(Write(o, sf, v), sg) == Read(o, sg);
  }

  /** Every reader of a fresh object answers `nil`. */
  lemma FreshReadsNil(naming: Naming, fields: seq<string>, f: string)
    requires f in fields && Unambiguous(naming, fields) && IsIvarName(SlotName(naming, f))
    ensures Get(Generate(naming, fields), Instance(map[]), GetterName(naming, f)) == Ok(Nil)
  {
    DefineBindsFields(naming, fields, map[], f);
  }

  /** A declared field whose instance-variable name is not valid has a reader
      and a writer, but calling either raises NameError. */
  lemma InvalidSlotRaises(naming: Naming, fields: seq<string>, o: Instance, f: string, v: Value)
    requires f in fields && Unambiguous(naming, fields) && !IsIvarName(SlotName(naming, f))
    ensures Get(Generate(naming, fields), o, GetterName(naming, f)) == Err(InvalidName(SlotName(naming, f)))
    ensures Set(Generate(naming, fields), o, SetterName(naming, f), v) == Err(InvalidName(SlotName(naming, f)))
  {
    DefineBindsFields(naming, fields, map[], f);
  }

  /** `wo_de_shuxing :ready?` defines `ready?`, but `@ready?` is no
      instance-variable name, so calling it raises NameError. */
  lemma QuestionMarkFieldRaises(o: Instance)
    ensures Get(Generate(Verbatim, ["ready?"]), o, "ready?") == Err(InvalidName("@ready?"))
  {
    VerbatimUnambiguous(["ready?"]);
    assert SlotName(Verbatim, "ready?") == "@ready?";
    assert !IdentChar("@ready?"[6]);
    InvalidSlotRaises(Verbatim, ["ready?"], o, "ready?", Nil);
  }

  /** A name the generator did not define raises NoMethodError, read or write. */
  lemma UndeclaredRaises(naming: Naming, fields: seq<string>, o: Instance, name: string, v: Value)
    requires name !in Declared(naming, fields)
    ensures Get(Generate(naming, fields), o, name) == Err(NoMethod(name))
    ensures Set(Generate(naming, fields), o, name, v) == Err(NoMethod(name))
  {
  }

  /** Writes to two different instance variables commute. */
  lemma WritesCommute(o: Instance, s1: string, s2: string, v: Value, w: Value)
    requires s1 != s2
    ensures Write(Write(o, s1, v), s2, w) == Write(Write(o, s2, w), s1, v)
  {
    assert o.ivars[s1 := v][s2 := w] == o.ivars[s2 := w][s1 := v];
  }

  /** Writes to two different fields commute. */
  lemma SettersCommute(naming: Naming, fields: seq<string>, o: Instance, f: string, g: string, v: Value, w: Value)
    requires f in fields && g in fields && f != g && Unambiguous(naming, fields)
    requires IsIvarName(SlotName(naming, f)) && IsIvarName(SlotName(naming, g))
    ensures Set(Generate(naming, fields), o, SetterName(naming, f), v).Ok?
    ensures Set(Generate(naming, fields), o, SetterName(naming, g), w).Ok?
    ensures Set(Generate(naming, fields), Set(Generate(naming, fields), o, SetterName(naming, f), v).value, SetterName(naming, g), w)
            == Set(Generate(naming, fields), Set(Generate(naming, fields), o, SetterName(naming, g), w).value, SetterName(naming, f), v)
  {
    var t := Generate(naming, fields);
    var sf, sg := SlotName(naming, f), SlotName(naming, g);
    DefineBindsFields(naming, fields, map[], f);
    DefineBindsFields(naming, fields, map[], g);
    assert t[SetterName(naming, f)] == Writer(sf) && t[SetterName(naming, g)] == Writer(sg);
    SlotNameInjective(naming, f, g);
    WritesCommute(o, sf, sg, v, w);
  }
}

=== FILE: array_ex.dfy ===
/** The three methods `array_ex.rb` adds to `Array`, on arrays of integers:
    `hello`, `foldl` and a `first` that answers the last element. */
module ArrayEx {
  import opened Wrappers
  import opened Ruby
  import opened Calc

  /** The receiver's class name, interpolated by `hello`. */
  const ClassName: string := "Array"

  /** `hello`: a greeting naming the receiver's class; the contents play no part. */
  function Hello(xs: seq<int>): (r: string)
    ensures r == "Hello, I'm an Array!"
  {
    "Hello, I'm an " + ClassName + "!"
  }

  /** The sum of the elements, taken from the front. */
  function Sum(xs: seq<int>): int
    decreases |xs|
  {
    if |xs| == 0 then 0 else xs[0] + Sum(xs[1..])
  }

  lemma {:induction false} SumSnoc(xs: seq<int>, x: int)
    ensures Sum(xs + [x]) == Sum(xs) + x
    decreases |xs|
  {
    if |xs| == 0 {
      assert xs + [x] == [x];
    } else {
      assert (xs + [x])[1..] == xs[1..] + [x];
      SumSnoc(xs[1..], x);
    }
  }

  /** Reference left fold seeded at 0 with no guard: the running value is
      combined with each element in order, and the first application that
      raises aborts the fold. */
  function FoldLeft(op: Op, xs: seq<int>): Result<int>
    decreases |xs|
  {
    if |xs| == 0 then Ok(0)
    else
      match FoldLeft(op, xs[..|xs| - 1])
      case Err(e) => Err(e)
      case Ok(acc) => Apply(op, acc, xs[|xs| - 1])
  }

  /** Once a prefix has raised, the whole fold raises the same exception. */
  lemma {:induction false} FoldLeftErrSticks(op: Op, xs: seq<int>, i: nat)
    requires i <= |xs|
    requires FoldLeft(op, xs[..i]).Err?
    ensures FoldLeft(op, xs) == FoldLeft(op, xs[..i])
    decreases |xs| - i
  {
    if i < |xs| {
      var init := xs[..|xs| - 1];
      assert init[..i] == xs[..i];
      FoldLeftErrSticks(op, init, i);
    } else {
      assert xs[..i] == xs;
    }
  }

  /** `foldl(method)`: `inject(0) {|res, i| res ? res.send(method, i) : 0}`.
      The accumulator is `nil` or an Integer; the reset branch would fire
      only on `nil`, and the loop invariant shows it never does, so the
      method is the plain left fold. */
  method Foldl(op: Op, xs: seq<int>) returns (r: Result<int>)
    ensures r == FoldLeft(op, xs)
  {
    var res: Option<int> := Some(0);
    var i := 0;
    while i < |xs|
      invariant 0 <= i <= |xs|
      invariant res.Some?
      invariant FoldLeft(op, xs[..i]) == Ok(res.value)
    {
      assert xs[..i + 1][..i] == xs[..i];
      if res.Some? {
        var step := Apply(op, res.value, xs[i]);
        if step.Err? {
          FoldLeftErrSticks(op, xs, i + 1);
          return Err(step.error);
        }
        res := Some(step.value);
      } else {
        res := Some(0);
      }
      i := i + 1;
    }
    assert xs[..i] == xs;
    r := Ok(res.value);
  }

  /** Folding `+` sums the elements. */
  lemma {:induction false} FoldAddIsSum(xs: seq<int>)
    ensures FoldLeft(Add, xs) == Ok(Sum(xs))
    decreases |xs|
  {
    if |xs| > 0 {
      var init := xs[..|xs| - 1];
      FoldAddIsSum(init);
      SumSnoc(init, xs[|xs| - 1]);
      assert init + [xs[|xs| - 1]] == xs;
    }
  }

  /** Folding `-` from the seed 0 negates the sum. */
  lemma {:induction false} FoldSubIsNegatedSum(xs: seq<int>)
    ensures FoldLeft(Sub, xs) == Ok(-Sum(xs))
    decreases |xs|
  {
    if |xs| > 0 {
      var init := xs[..|xs| - 1];
      FoldSubIsNegatedSum(init);
      SumSnoc(init, xs[|xs| - 1]);
      assert init + [xs[|xs| - 1]] == xs;
    }
  }

  /** Folding `*` from the seed 0 is 0 whatever the elements. */
  lemma {:induction false} FoldMulIsZero(xs: seq<int>)
    ensures FoldLeft(Mul, xs) == Ok(0)
    decreases |xs|
  {
    if |xs| > 0 {
      FoldMulIsZero(xs[..|xs| - 1]);
    }
  }

  /** Folding `/` from the seed 0 is 0, unless some element is 0, which
      raises ZeroDivisionError. */
  lemma {:induction false} FoldDivIsZeroOrRaises(xs: seq<int>)
    ensures FoldLeft(Div, xs) == if 0 in xs then Err(ZeroDivision) else Ok(0)
    decreases |xs|
  {
    if |xs| > 0 {
      var init := xs[..|xs| - 1];
      FoldDivIsZeroOrRaises(init);
      assert xs == init + [xs[|xs| - 1]];
      assert (0 in xs) <==> (0 in init || xs[|xs| - 1] == 0);
      if 0 !in xs {
        var q := FloorDiv(0, xs[|xs| - 1]);
        FloorQuotientUnique(0, xs[|xs| - 1], q, 0);
      }
    }
  }

  /** The empty array folds to the seed. */
  lemma FoldEmpty(op: Op)
    ensures FoldLeft(op, []) == Ok(0)
  {
  }

  /** The array 1..10 of the script. */
  const OneToTen: seq<int> := [1, 2, 3, 4, 5, 6, 7, 8, 9, 10]

  /** By the code, `foldl('+')` over 1..10 is 55. */
  lemma FoldOneToTen()
    ensures FoldLeft(Add, OneToTen) == Ok(55)
    ensures FoldLeft(Add, OneToTen) != Ok(56)
  {
    FoldAddIsSum(OneToTen);
  }

  /** `first`: answers `last`, so `nil` for an empty array. */
  function First(xs: seq<int>): Option<int> {
    if |xs| == 0 then None else Some(xs[|xs| - 1])
  }

  /** The elements in reverse order. */
  function Reverse(xs: seq<int>): (r: seq<int>)
    ensures |r| == |xs|
    decreases |xs|
  {
    if |xs| == 0 then [] else Reverse(xs[1..]) + [xs[0]]
  }

  /** What `first` returns is what the real first element of the reversed
      array is, and `nil` exactly when the array is empty. */
  lemma {:induction false} FirstIsHeadOfReverse(xs: seq<int>)
    ensures First(xs) == if |xs| == 0 then None else Some(Reverse(xs)[0])
    decreases |xs|
  {
    if |xs| > 1 {
      FirstIsHeadOfReverse(xs[1..]);
      assert xs[1..][|xs[1..]| - 1] == xs[|xs| - 1];
    }
  }

  /** On the script's array `first` answers 10, not the front element 1. */
  lemma FirstOfOneToTen()
    ensures First(OneToTen) == Some(10)
    ensures OneToTen[0] == 1
  {
  }

  /** The script: `puts a.hello`, `puts a.foldl('+')`, `puts a.first`. */
  method Script() returns (t: Transcript)
    ensures t.out == ["Hello, I'm an Array!", "55", "10"]
    ensures t.raised == None
  {
    var a := OneToTen;
    var folded := Foldl(Add, a);
    FoldOneToTen();
    var last := First(a);
    assert IntToString(55) == NatToString(5) + [Digits[5]] == "55";
    assert IntToString(10) == NatToString(1) + [Digits[0]] == "10";
    t := Transcript([Hello(a), IntToString(folded.value), IntToString(last.value)], None);
  }
}

=== FILE: calc.dfy ===
/** `calc(left, operator, right)`: an operator string is checked against a
    closed set of four symbols and only then applied to two integers. */
module Calc {
  import opened Wrappers
  import opened Ruby

  /** The four operators the calculator accepts. */
  datatype Op = Add | Sub | Div | Mul

  /** The operator strings the calculator accepts. */
  const Allowed: set<string> := {"+", "-", "/", "*"}

  /** The symbol naming each operator. */
  function Symbol(op: Op): string {
    match op
    case Add => "+"
    case Sub => "-"
    case Div => "/"
    case Mul => "*"
  }

  /** Membership test of the operator string in the accepted set. */
  function ParseOp(s: string): (r: Option<Op>)
    ensures r.Some? <==> s in Allowed
    ensures r.Some? ==> Symbol(r.value) == s
  {
    if s == "+" then Some(Add)
    else if s == "-" then Some(Sub)
    else if s == "/" then Some(Div)
    else if s == "*" then Some(Mul)
    else None
  }

  /** Every operator is recognised from its own symbol. */
  lemma ParseSymbol(op: Op)
    ensures ParseOp(Symbol(op)) == Some(op)
  {
  }

  /** `q` is `a / b` rounded toward negative infinity, the quotient
      `Integer#/` returns: the remainder `a - b * q` has the sign of `b` and
      is smaller than `b` in magnitude. */
  ghost predicate IsFloorQuotient(a: int, b: int, q: int) {
    || (b > 0 && b * q <= a < b * q + b)
    || (b < 0 && b * q + b < a <= b * q)
  }

  /** Floor division. Dafny's own `/` is Euclidean and differs from it when
      the divisor is negative. */
  function FloorDiv(a: int, b: int): (q: int)
    requires b != 0
    ensures IsFloorQuotient(a, b, q)
  {
    if b > 0 then a / b else (-a) / (-b)
  }

  /** There is only one floor quotient, so `FloorDiv` is the quotient. */
  lemma FloorQuotientUnique(a: int, b: int, q1: int, q2: int)
    requires IsFloorQuotient(a, b, q1) && IsFloorQuotient(a, b, q2)
    ensures q1 == q2
  {
    if b > 0 {
      assert b * q1 < b * (q2 + 1) && b * q2 < b * (q1 + 1);
    } else {
      assert b * q1 > b * (q2 + 1) && b * q2 > b * (q1 + 1);
    }
  }

  /** Floor and Euclidean division part ways on a negative divisor that
      does not divide evenly. */
  lemma FloorDivIsNotEuclidean()
    ensures FloorDiv(7, -2) == -4 && 7 / -2 == -3
    ensures FloorDiv(-7, 2) == -4 && -7 / 2 == -4
  {
    assert IsFloorQuotient(7, -2, -4);
    FloorQuotientUnique(7, -2, FloorDiv(7, -2), -4);
    assert IsFloorQuotient(-7, 2, -4);
    FloorQuotientUnique(-7, 2, FloorDiv(-7, 2), -4);
  }

  /** `left.send(operator, right)` for an accepted operator on integers. */
  function Apply(op: Op, left: int, right: int): (r: Result<int>)
    ensures r.Err? <==> op == Div && right == 0
    ensures r.Err? ==> r.error == ZeroDivision
    ensures op == Div && r.Ok? ==> IsFloorQuotient(left, right, r.value)
  {
    match op
    case Add => Ok(left + right)
    case Sub => Ok(left - right)
    case Mul => Ok(left * right)
    case Div => if right == 0 then Err(ZeroDivision) else Ok(FloorDiv(left, right))
  }

  /** The calculator: validation first, then dispatch. */
  function Calc(left: int, operator: string, right: int): (r: Result<int>)
    ensures operator !in Allowed ==> r == Err(UnknownOperator)
    ensures operator in Allowed ==> r != Err(UnknownOperator)
    ensures operator == "+" ==> r == Ok(left + right)
    ensures operator == "-" ==> r == Ok(left - right)
    ensures operator == "*" ==> r == Ok(left * right)
    ensures operator == "/" && right == 0 ==> r == Err(ZeroDivision)
    ensures operator == "/" && right != 0 ==> r.Ok? && IsFloorQuotient(left, right, r.value)
  {
    match ParseOp(operator)
    case None => Err(UnknownOperator)
    case Some(op) => Apply(op, left, right)
  }

  /** Whether an operator is rejected depends on the operator alone: the
      operands play no part in the validation step. */
  lemma ValidationIgnoresOperands(operator: string, l1: int, r1: int, l2: int, r2: int)
    ensures (Calc(l1, operator, r1) == Err(UnknownOperator)) <==> (Calc(l2, operator, r2) == Err(UnknownOperator))
  {
  }

  /** `%` is rejected rather than computing a remainder, and `1 + 1` is 2. */
  lemma CalcExamples()
    ensures Calc(1, "+", 1) == Ok(2)
    ensures Calc(2, "%", 3) == Err(UnknownOperator)
    ensures forall n :: Calc(2, "%", 3) != Ok(n)
  {
  }

  /** The script: prints `calc(1,'+',1)`, then `calc(2,'%',3)` raises before
      anything is printed for it. */
  function Script(): (t: Transcript)
    ensures t.out == ["2"]
    ensures t.raised == Some(UnknownOperator)
  {
    var first := Calc(1, "+", 1);
    var second := Calc(2, "%", 3);
    match first
    case Err(e) => Transcript([], Some(e))
    case Ok(v) =>
      match second
      case Err(e) => Transcript([IntToString(v)], Some(e))
      case Ok(w) => Transcript([IntToString(v), IntToString(w)], None)
  }
}

=== FILE: fruit_basket.dfy ===
/** `SorryBasket`: a `FruitBasket` declaring `fruits :lychee, :mango,
    :mangosteen`, so it has `lychees`/`lychees=`, `mangos`/`mangos=` and
    `mangosteens`/`mangosteens=`, and a constructor assigning the three
    instance variables positionally. */
module FruitBasket {
  import opened Wrappers
  import opened Ruby
  import opened Accessors

  const Fruits: seq<string> := ["lychee", "mango", "mangosteen"]

  /** The methods of `SorryBasket`: a reader and a writer per fruit, on the
      pluralised instance variable. */
  const Methods: MethodTable :=
    map["lychees" := Reader("@lychees"), "lychees=" := Writer("@lychees"),
        "mangos" := Reader("@mangos"), "mangos=" := Writer("@mangos"),
        "mangosteens" := Reader("@mangosteens"), "mangosteens=" := Writer("@mangosteens")]

  /** The table is what `fruits :lychee, :mango, :mangosteen` generates. */
  lemma MethodsGenerated()
    ensures Generate(Pluralised, Fruits) == Methods
  {
    var m0: MethodTable := map[];
    var m1 := m0["lychees" := Reader("@lychees")]["lychees=" := Writer("@lychees")];
    var m2 := m1["mangos" := Reader("@mangos")]["mangos=" := Writer("@mangos")];
    var m3 := m2["mangosteens" := Reader("@mangosteens")]["mangosteens=" := Writer("@mangosteens")];
    assert GetterName(Pluralised, "lychee") == "lychees" && SetterName(Pluralised, "lychee") == "lychees="
           && SlotName(Pluralised, "lychee") == "@lychees";
    assert GetterName(Pluralised, "mango") == "mangos" && SetterName(Pluralised, "mango") == "mangos="
           && SlotName(Pluralised, "mango") == "@mangos";
    assert GetterName(Pluralised, "mangosteen") == "mangosteens" && SetterName(Pluralised, "mangosteen") == "mangosteens="
           && SlotName(Pluralised, "mangosteen") == "@mangosteens";
    assert Fruits[1..] == ["mango", "mangosteen"];
    assert Fruits[1..][1..] == ["mangosteen"];
    assert Fruits[1..][1..][1..] == [];
    assert Define(Pluralised, Fruits, m0) == Define(Pluralised, Fruits[1..], m1);
    assert Define(Pluralised, Fruits[1..], m1) == Define(Pluralised, Fruits[1..][1..], m2);
    assert Define(Pluralised, Fruits[1..][1..], m2) == Define(Pluralised, Fruits[1..][1..][1..], m3);
  }

  /** `SorryBasket.new(a, b, c)`: `initialize` assigns `@lychees`, `@mangos`
      and `@mangosteens` directly, in that order. */
  function NewSorryBasket(a: Value, b: Value, c: Value): (o: Instance)
    ensures Get(Methods, o, "lychees") == Ok(a)
    ensures Get(Methods, o, "mangos") == Ok(b)
    ensures Get(Methods, o, "mangosteens") == Ok(c)
  {
    Instance(map["@lychees" := a, "@mangos" := b, "@mangosteens" := c])
  }

  /** Every instance variable the basket's methods use is a valid
      instance-variable name. */
  lemma SlotsValid(name: string)
    requires name in Methods
    ensures IsIvarName(Methods[name].slot)
  {
  }

  /** A writer of the basket succeeds, and leaves every reader on another
      instance variable unchanged. */
  lemma WriterFrame(o: Instance, w: string, r: string, v: Value)
    requires w in Methods && Methods[w].Writer? && r in Methods && Methods[r].Reader?
    requires Methods[w].slot != Methods[r].slot
    ensures Set(Methods, o, w, v) == Ok(Write(o, Methods[w].slot, v))
    ensures Get(Methods, Write(o, Methods[w].slot, v), r) == Get(Methods, o, r)
  {
  }

  /** For every fruit, its reader answers what its writer last stored. */
  lemma FruitGetAfterSet(o: Instance, f: string, v: Value)
    requires f in Fruits
    ensures Set(Methods, o, f + "s=", v).Ok?
    ensures Get(Methods, Set(Methods, o, f + "s=", v).value, f + "s") == Ok(v)
  {
    assert "lychee" + "s" == "lychees" && "lychee" + "s=" == "lychees=";
    assert "mango" + "s" == "mangos" && "mango" + "s=" == "mangos=";
    assert "mangosteen" + "s" == "mangosteens" && "mangosteen" + "s=" == "mangosteens=";
    SlotsValid(f + "s=");
    SlotsValid(f + "s");
  }

  /** Writing one fruit leaves the other fruits' readers unchanged. */
  lemma FruitSetFrame(o: Instance, f: string, g: string, v: Value)
    requires f in Fruits && g in Fruits && f != g
    ensures Set(Methods, o, f + "s=", v).Ok?
    ensures Get(Methods, Set(Methods, o, f + "s=", v).value, g + "s") == Get(Methods, o, g + "s")
  {
    assert "lychee" + "s" == "lychees" && "lychee" + "s=" == "lychees=";
    assert "mango" + "s" == "mangos" && "mango" + "s=" == "mangos=";
    assert "mangosteen" + "s" == "mangosteens" && "mangosteen" + "s=" == "mangosteens=";
    WriterFrame(o, f + "s=", g + "s", v);
  }

  /** After `mangosteens = 99` on the basket built from 36, 6, 8 the basket
      reads 36, 6, 99. */
  lemma MangosteensTo99()
    ensures Set(Methods, NewSorryBasket(Int(36), Int(6), Int(8)), "mangosteens=", Int(99)).Ok?
    ensures var o := Set(Methods, NewSorryBasket(Int(36), Int(6), Int(8)), "mangosteens=", Int(99)).value;
            && Get(Methods, o, "mangosteens") == Ok(Int(99))
            && Get(Methods, o, "lychees") == Ok(Int(36))
            && Get(Methods, o, "mangos") == Ok(Int(6))
  {
    var o := NewSorryBasket(Int(36), Int(6), Int(8));
    var o' := Set(Methods, o, "mangosteens=", Int(99)).value;
    assert o'.ivars == o.ivars["@mangosteens" := Int(99)];
  }

  /** `rambutan` was never declared, so `rambutan=` raises NoMethodError. */
  lemma RambutanRaises(o: Instance, v: Value)
    ensures Set(Methods, o, "rambutan=", v) == Err(NoMethod("rambutan="))
  {
  }

  /** The script: three values printed, `mangosteens = 99` succeeds, and
      `rambutan = 30` aborts the run. */
  function Script(): (t: Transcript)
    ensures t.out == ["36", "6", "8"]
    ensures t.raised == Some(NoMethod("rambutan="))
  {
    var basket := NewSorryBasket(Int(36), Int(6), Int(8));
    var out := [Render(Get(Methods, basket, "lychees").value),
                Render(Get(Methods, basket, "mangos").value),
                Render(Get(Methods, basket, "mangosteens").value)];
    assert IntToString(36) == NatToString(3) + [Digits[6]] == "36";
    MangosteensTo99();
    var basket := Set(Methods, basket, "mangosteens=", Int(99)).value;
    RambutanRaises(basket, Int(30));
    match Set(Methods, basket, "rambutan=", Int(30))
    case Ok(_) => Transcript(out, None)
    case Err(e) => Transcript(out, Some(e))
  }
}

=== FILE: greeter.dfy ===
/** `Greeter`: a salutation fixed at construction, a `salutation` reader, and
    a `method_missing` that answers any `hello_<suffix>` call by printing
    "<salutation> <suffix>!" and lets every other unknown call raise
    NoMethodError. */
module Greeting {
  import opened Wrappers
  import opened Ruby

  datatype Greeter = Greeter(salutation: string)

  /** `Greeter.new(sal)`. */
  function New(sal: string): (g: Greeter)
    ensures g.salutation == sal
  {
    Greeter(sal)
  }

  /** What a successful call does: return a value, or print one line (and
      return `nil`). */
  datatype Reply = Returned(value: string) | Printed(line: string)

  const Prefix: string := "hello_"

  /** A single-line name the pattern `hello_(.+)` accepts whole: the prefix
      followed by at least one more character. */
  predicate IsHelloName(line: string) {
    |line| > |Prefix| && line[..|Prefix|] == Prefix
  }

  /** The lines of `s` joined back with newline separators. */
  function Join(lines: seq<string>): string
    decreases |lines|
  {
    if |lines| == 0 then ""
    else if |lines| == 1 then lines[0]
    else lines[0] + "\n" + Join(lines[1..])
  }

  /** `s` cut at every newline; the pieces are what the anchors `^` and `$`
      delimit. */
  function Lines(s: string): (r: seq<string>)
    ensures |r| >= 1
    ensures forall k :: 0 <= k < |r| ==> '\n' !in r[k]
    ensures Join(r) == s
    decreases |s|
  {
    if |s| == 0 then [""]
    else
      var rest := Lines(s[1..]);
      if s[0] == '\n' then
        assert s == "\n" + s[1..];
        [""] + rest
      else
        var r := [[s[0]] + rest[0]] + rest[1..];
        assert r[1..] == rest[1..];
        assert s == [s[0]] + s[1..];
        r
  }

  /** A name without a newline is one line. */
  lemma {:induction false} SingleLine(s: string)
    requires '\n' !in s
    ensures Lines(s) == [s]
    decreases |s|
  {
    if |s| > 0 {
      assert '\n' !in s[1..];
      SingleLine(s[1..]);
      assert s == [s[0]] + s[1..];
    }
  }

  /** The suffix captured from one line, if the whole line matches. */
  function MatchLine(line: string): Option<string> {
    if IsHelloName(line) then Some(line[|Prefix|..]) else None
  }

  /** The capture of the leftmost matching line. */
  function FirstMatch(lines: seq<string>): (r: Option<string>)
    ensures r.None? <==> forall k :: 0 <= k < |lines| ==> MatchLine(lines[k]).None?
    ensures r.Some? ==> exists k :: 0 <= k < |lines| && MatchLine(lines[k]) == r
                                    && forall j :: 0 <= j < k ==> MatchLine(lines[j]).None?
    decreases |lines|
  {
    if |lines| == 0 then None
    else
      match MatchLine(lines[0])
      case Some(suffix) => Some(suffix)
      case None =>
        var r := FirstMatch(lines[1..]);
        assert forall k :: 1 <= k < |lines| ==> lines[k] == lines[1..][k - 1];
        r
  }

  /** `method_name.to_s =~ /^hello_(.+)$/` and its capture `$1`. */
  function HelloSuffix(name: string): (r: Option<string>)
    ensures r.Some? ==> |r.value| >= 1 && '\n' !in r.value
    ensures '\n' !in name ==> (r.Some? <==> IsHelloName(name))
    ensures '\n' !in name && r.Some? ==> name == Prefix + r.value
  {
    var r := FirstMatch(Lines(name));
    if '\n' in name then r
    else
      SingleLine(name);
      if |name| <= |Prefix| then r
      else
        assert name == name[..|Prefix|] + name[|Prefix|..];
        r
  }

  /** `method_missing(method_name)`: print the greeting on a match, else
      `super`, which raises NoMethodError. */
  function MethodMissing(g: Greeter, name: string): (r: Result<string>)
    ensures r.Err? ==> r.error == NoMethod(name)
    ensures '\n' !in name ==> (r.Ok? <==> IsHelloName(name))
    ensures '\n' !in name && r.Ok? ==> r.value == g.salutation + " " + name[|Prefix|..] + "!"
  {
    match HelloSuffix(name)
    case Some(suffix) => Ok(g.salutation + " " + suffix + "!")
    case None => Err(NoMethod(name))
  }

  /** Calling method `name` without arguments on a greeter: the one defined
      method is the `salutation` reader; every other name reaches
      `method_missing`. */
  function Call(g: Greeter, name: string): (r: Result<Reply>)
    ensures name == "salutation" ==> r == Ok(Returned(g.salutation))
    ensures name != "salutation" && '\n' !in name ==> (r.Ok? <==> IsHelloName(name))
    ensures name != "salutation" && r.Err? ==> r.error == NoMethod(name)
  {
    if name == "salutation" then Ok(Returned(g.salutation))
    else
      match MethodMissing(g, name)
      case Ok(line) => Ok(Printed(line))
      case Err(e) => Err(e)
  }

  /** Building the name `hello_<suffix>` from any one-line, non-empty suffix
      and calling it prints the salutation, a space, that very suffix and
      "!". */
  lemma {:induction false} GreetingRoundTrip(g: Greeter, suffix: string)
    requires |suffix| >= 1 && '\n' !in suffix
    ensures Call(g, Prefix + suffix) == Ok(Printed(g.salutation + " " + suffix + "!"))
  {
    var name := Prefix + suffix;
    assert name[..|Prefix|] == Prefix && name[|Prefix|..] == suffix;
    assert '\n' !in name by {
      assert forall k :: 0 <= k < |name| ==> name[k] == if k < |Prefix| then Prefix[k] else suffix[k - |Prefix|];
    }
    assert name != "salutation" by {
      assert name[0] != "salutation"[0];
    }
  }

  /** The bare `hello_` has an empty suffix, so it raises. */
  lemma BareHelloRaises(g: Greeter)
    ensures Call(g, "hello_") == Err(NoMethod("hello_"))
  {
  }

  /** The suffix is everything after the prefix, later underscores included. */
  lemma SuffixKeepsUnderscores()
    ensures HelloSuffix("hello_a_b") == Some("a_b")
  {
    var r := HelloSuffix("hello_a_b");
    assert IsHelloName("hello_a_b");
    assert "hello_a_b" == Prefix + "a_b";
    assert Prefix + r.value == Prefix + "a_b";
    assert r.value == (Prefix + r.value)[|Prefix|..];
  }

  /** A newline closes the first line; the rest splits on its own. */
  lemma {:induction false} LinesAfterNewline(first: string, rest: string)
    requires '\n' !in first
    ensures Lines(first + "\n" + rest) == [first] + Lines(rest)
    decreases |first|
  {
    var s := first + "\n" + rest;
    if |first| == 0 {
      assert s == "\n" + rest;
      assert s[1..] == rest;
    } else {
      assert s[1..] == first[1..] + "\n" + rest;
      assert '\n' !in first[1..];
      LinesAfterNewline(first[1..], rest);
      assert s[0] == first[0];
      assert [s[0]] + first[1..] == first;
    }
  }

  /** `^` also matches after a newline: a first line that does not match is
      skipped and the search goes on in the next line. */
  lemma SkipsNonMatchingLine(first: string, rest: string)
    requires '\n' !in first && !IsHelloName(first)
    ensures HelloSuffix(first + "\n" + rest) == HelloSuffix(rest)
  {
    LinesAfterNewline(first, rest);
    var lines := [first] + Lines(rest);
    assert lines[1..] == Lines(rest);
  }

  /** There is no `salutation=` method, so the salutation cannot be changed
      after construction: the setter call raises and the reader keeps
      answering the constructor's argument. */
  lemma SalutationReadOnly(sal: string)
    ensures Call(New(sal), "salutation=") == Err(NoMethod("salutation="))
    ensures Call(New(sal), "salutation") == Ok(Returned(sal))
  {
    NotHelloName(New(sal), "salutation=");
  }

  /** One step of the script: the printed line on a match, or the
      exception that aborts the run. */
  function Step(t: Transcript, g: Greeter, name: string): Transcript {
    if t.raised.Some? then t
    else
      match Call(g, name)
      case Ok(Printed(line)) => Transcript(t.out + [line], None)
      case Ok(Returned(_)) => t
      case Err(e) => Transcript(t.out, Some(e))
  }

  /** A one-line name that does not start with `h` raises NoMethodError. */
  lemma NotHelloName(g: Greeter, name: string)
    requires name != "salutation" && '\n' !in name
    requires |name| > 0 && name[0] != 'h'
    ensures Call(g, name) == Err(NoMethod(name))
  {
    if |name| > |Prefix| {
      assert name[..|Prefix|][0] != Prefix[0];
    }
  }

  /** The first call of the script prints "你好 jim!". */
  lemma CallJim()
    ensures Call(New("你好"), "hello_jim") == Ok(Printed("你好 jim!"))
  {
    var g := New("你好");
    GreetingRoundTrip(g, "jim");
    assert Prefix + "jim" == "hello_jim";
    assert g.salutation + " " + "jim" + "!" == "你好 jim!";
  }

  /** The second call of the script prints "Habari paul!". */
  lemma CallPaul()
    ensures Call(New("Habari"), "hello_paul") == Ok(Printed("Habari paul!"))
  {
    var g := New("Habari");
    GreetingRoundTrip(g, "paul");
    assert Prefix + "paul" == "hello_paul";
    assert g.salutation + " " + "paul" + "!" == "Habari paul!";
  }

  /** The last call of the script raises NoMethodError. */
  lemma CallTim()
    ensures Call(New("你好"), "goodbye_tim") == Err(NoMethod("goodbye_tim"))
  {
    NotHelloName(New("你好"), "goodbye_tim");
  }

  /** The script: two greetings are printed, then `goodbye_tim` raises. */
  function Script(): (t: Transcript)
    ensures t.out == ["你好 jim!", "Habari paul!"]
    ensures t.raised == Some(NoMethod("goodbye_tim"))
  {
    var chinese := New("你好");
    var swahili := New("Habari");
    CallJim();
    CallPaul();
    CallTim();
    var t := Step(Transcript([], None), chinese, "hello_jim");
    var t := Step(t, swahili, "hello_paul");
    Step(t, chinese, "goodbye_tim")
  }
}

=== FILE: ruby.dfy ===
/** The few pieces of the Ruby runtime the scripts observe: dynamically typed
    values, their `to_s` rendering, and what a script prints before it ends
    or aborts. */
module Ruby {
  import opened Wrappers

  /** The values the scripts store in instance variables. */
  datatype Value = Nil | Int(i: int) | Str(s: string)

  const Digits: string := "0123456789"

  /** Numeric value of a decimal digit character, or -1 for any other. */
  function DigitValue(c: char): int {
    if '0' <= c <= '9' then (c as int) - ('0' as int) else -1
  }

  /** Value of a string of decimal digits, read most significant first. */
  function DecimalValue(s: string): int
    decreases |s|
  {
    if |s| == 0 then 0 else 10 * DecimalValue(s[..|s| - 1]) + DigitValue(s[|s| - 1])
  }

  /** `Integer#to_s` for a non-negative integer. */
  function NatToString(n: nat): (r: string)
    ensures |r| >= 1
    ensures forall k :: 0 <= k < |r| ==> r[k] in Digits
    ensures n > 0 ==> r[0] != '0'
    decreases n
  {
    if n < 10 then [Digits[n]] else NatToString(n / 10) + [Digits[n % 10]]
  }

  /** Reading back the decimal rendering gives the number rendered. */
  lemma {:induction false} NatToStringRoundTrip(n: nat)
    ensures DecimalValue(NatToString(n)) == n
    decreases n
  {
    var r := NatToString(n);
    if n < 10 {
      assert r == [Digits[n]];
      assert r[..0] == [];
    } else {
      NatToStringRoundTrip(n / 10);
      assert r[..|r| - 1] == NatToString(n / 10);
      assert r[|r| - 1] == Digits[n % 10];
    }
  }

  /** `Integer#to_s`: a minus sign before the magnitude for negative numbers. */
  function IntToString(n: int): (r: string)
    ensures |r| >= 1
    ensures (r[0] == '-') <==> n < 0
    ensures var d := if n < 0 then 1 else 0;
            |r| > d && (forall k :: d <= k < |r| ==> r[k] in Digits) && (n != 0 ==> r[d] != '0')
  {
    if n < 0 then "-" + NatToString(-n) else NatToString(n)
  }

  /** Reading back what `Integer#to_s` printed gives the integer: the digits
      after the sign spell out the magnitude. */
  lemma {:induction false} IntToStringRoundTrip(n: int)
    ensures n < 0 ==> DecimalValue(IntToString(n)[1..]) == -n
    ensures n >= 0 ==> DecimalValue(IntToString(n)) == n
  {
    var r := IntToString(n);
    if n < 0 {
      var m: nat := -n;
      assert r == "-" + NatToString(m);
      assert r[1..] == NatToString(m);
      NatToStringRoundTrip(m);
    } else {
      assert r == NatToString(n);
      NatToStringRoundTrip(n);
    }
  }

  /** `to_s` as string interpolation applies it: `nil` renders as "". */
  function Render(v: Value): (r: string)
    ensures r == "" <==> v == Nil || v == Str("")
  {
    match v
    case Nil => ""
    case Int(i) => IntToString(i)
    case Str(s) => s
  }

  /** What a script wrote to standard output, one entry per `puts` line, and
      the exception that aborted it, if any. */
  datatype Transcript = Transcript(out: seq<string>, raised: Option<Error>)
}

=== FILE: shuxing.dfy ===
/** The `Student` of `shuxing.rb`: a `Shuxingable` declaring
    `wo_de_shuxing :name, :major, :dorm`, which generates `name`/`name=`,
    `major`/`major=` and `dorm`/`dorm=` on `@name`, `@major` and `@dorm`,
    plus a `to_s` rendering the three fields into one sentence. */
module Shuxing {
  import opened Wrappers
  import opened Ruby
  import opened Accessors

  const Fields: seq<string> := ["name", "major", "dorm"]

  /** The methods of this `Student`: a reader and a writer per field, named
      as declared. */
  const Methods: MethodTable :=
    map["name" := Reader("@name"), "name=" := Writer("@name"),
        "major" := Reader("@major"), "major=" := Writer("@major"),
        "dorm" := Reader("@dorm"), "dorm=" := Writer("@dorm")]

  /** The table is what `wo_de_shuxing :name, :major, :dorm` generates. */
  lemma MethodsGenerated()
    ensures Generate(Verbatim, Fields) == Methods
  {
    var m0: MethodTable := map[];
    var m1 := m0["name" := Reader("@name")]["name=" := Writer("@name")];
    var m2 := m1["major" := Reader("@major")]["major=" := Writer("@major")];
    var m3 := m2["dorm" := Reader("@dorm")]["dorm=" := Writer("@dorm")];
    assert SetterName(Verbatim, "name") == "name=" && SlotName(Verbatim, "name") == "@name";
    assert SetterName(Verbatim, "major") == "major=" && SlotName(Verbatim, "major") == "@major";
    assert SetterName(Verbatim, "dorm") == "dorm=" && SlotName(Verbatim, "dorm") == "@dorm";
    assert Fields[1..] == ["major", "dorm"];
    assert Fields[1..][1..] == ["dorm"];
    assert Fields[1..][1..][1..] == [];
    assert Define(Verbatim, Fields, m0) == Define(Verbatim, Fields[1..], m1);
    assert Define(Verbatim, Fields[1..], m1) == Define(Verbatim, Fields[1..][1..], m2);
    assert Define(Verbatim, Fields[1..][1..], m2) == Define(Verbatim, Fields[1..][1..][1..], m3);
  }

  /** `Student.new`: no instance variable assigned yet. */
  function New(): (o: Instance)
    ensures Get(Methods, o, "name") == Ok(Nil)
    ensures Get(Methods, o, "major") == Ok(Nil)
    ensures Get(Methods, o, "dorm") == Ok(Nil)
  {
    Instance(map[])
  }

  /** `to_s`: "#{name}学生在学习#{major}，住在#{dorm}", each field read through
      its reader. */
  function ToS(o: Instance): string {
    Render(Read(o, "@name")) + "学生在学习" + Render(Read(o, "@major")) + "，住在" + Render(Read(o, "@dorm"))
  }

  /** Calling method `m` with no argument on this `Student`: the class's own
      `to_s` answers the sentence, the generated readers answer their
      instance variable, and everything else goes to the generated table. */
  function Call(o: Instance, m: string): (r: Result<Value>)
    ensures m == "to_s" ==> r == Ok(Str(ToS(o)))
    ensures m == "name" ==> r == Ok(Read(o, "@name"))
    ensures m == "major" ==> r == Ok(Read(o, "@major"))
    ensures m == "dorm" ==> r == Ok(Read(o, "@dorm"))
    ensures m == "name=" || m == "major=" || m == "dorm=" ==> r == Err(WrongArguments(m))
    ensures m !in Methods && m != "to_s" ==> r == Err(NoMethod(m))
  {
    if m == "to_s" then Ok(Str(ToS(o))) else Get(Methods, o, m)
  }

  /** Calling method `m` with one argument `v` on this `Student`: the
      generated writers assign their instance variable; `to_s` and the
      readers take no argument. */
  function CallWith(o: Instance, m: string, v: Value): (r: Result<Instance>)
    ensures m == "name=" ==> r == Ok(Write(o, "@name", v))
    ensures m == "major=" ==> r == Ok(Write(o, "@major", v))
    ensures m == "dorm=" ==> r == Ok(Write(o, "@dorm", v))
    ensures m == "to_s" || m == "name" || m == "major" || m == "dorm" ==> r == Err(WrongArguments(m))
    ensures m !in Methods && m != "to_s" ==> r == Err(NoMethod(m))
  {
    if m == "to_s" then Err(WrongArguments(m)) else Set(Methods, o, m, v)
  }

  /** What `to_s` interpolates is what the three readers answer. */
  lemma ToSUsesReaders(o: Instance)
    ensures ToS(o) == Render(Get(Methods, o, "name").value) + "学生在学习"
                      + Render(Get(Methods, o, "major").value) + "，住在"
                      + Render(Get(Methods, o, "dorm").value)
  {
    assert Get(Methods, o, "name") == Call(o, "name") == Ok(Read(o, "@name"));
    assert Get(Methods, o, "major") == Call(o, "major") == Ok(Read(o, "@major"));
    assert Get(Methods, o, "dorm") == Call(o, "dorm") == Ok(Read(o, "@dorm"));
  }

  /** `tai.name = …; tai.dorm = …; tai.major = …` in the script's order. */
  function Assign(o: Instance, name: Value, dorm: Value, major: Value): Result<Instance> {
    match Set(Methods, o, "name=", name)
    case Err(e) => Err(e)
    case Ok(o1) =>
      match Set(Methods, o1, "dorm=", dorm)
      case Err(e) => Err(e)
      case Ok(o2) => Set(Methods, o2, "major=", major)
  }

  /** The script assigns in the order name, dorm, major, unlike the
      declaration order name, major, dorm; writes to distinct fields commute,
      so the object is the same as in declaration order. */
  lemma AssignmentOrderIrrelevant(o: Instance, name: Value, dorm: Value, major: Value)
    ensures Assign(o, name, dorm, major).Ok?
    ensures Assign(o, name, dorm, major).value
            == Write(Write(Write(o, "@name", name), "@major", major), "@dorm", dorm)
  {
    var o1 := Write(o, "@name", name);
    assert o1.ivars["@dorm" := dorm]["@major" := major] == o1.ivars["@major" := major]["@dorm" := dorm];
  }

  /** Once all three fields hold strings, `to_s` is those strings joined by
      the sentence's fixed words. */
  lemma RenderAssigned(o: Instance, name: string, major: string, dorm: string)
    ensures ToS(Write(Write(Write(o, "@name", Str(name)), "@major", Str(major)), "@dorm", Str(dorm)))
            == name + "学生在学习" + major + "，住在" + dorm
  {
  }

  /** The sentence printed for tai, put together from its parts. */
  lemma TaiSentence()
    ensures "太漂亮" + "学生在学习" + "计算机科学" + "，住在" + "东区Q座3楼409房"
            == "太漂亮学生在学习计算机科学，住在东区Q座3楼409房"
  {
  }

  /** A fresh `Student` has every field `nil`, which interpolates as "", so
      only the fixed words remain. */
  lemma FreshToS()
    ensures ToS(New()) == "学生在学习，住在"
  {
  }

  /** The script: `puts tai` renders the assigned fields. */
  function Script(): (t: Transcript)
    ensures t.out == ["太漂亮学生在学习计算机科学，住在东区Q座3楼409房"]
    ensures t.raised == None
  {
    var tai := New();
    AssignmentOrderIrrelevant(tai, Str("太漂亮"), Str("东区Q座3楼409房"), Str("计算机科学"));
    var tai := Assign(tai, Str("太漂亮"), Str("东区Q座3楼409房"), Str("计算机科学")).value;
    RenderAssigned(New(), "太漂亮", "计算机科学", "东区Q座3楼409房");
    TaiSentence();
    Transcript([ToS(tai)], None)
  }
}

=== FILE: student.dfy ===
/** The `Student` of `student.rb`: the same three fields declared with
    `attr_accessor`, here a plain record, and the same `to_s`. It is compared
    with the generated `Student` of `shuxing.rb`. */
module StaticStudent {
  import opened Wrappers
  import opened Ruby
  import Accessors
  import Shuxing

  datatype Student = Student(name: Value, major: Value, dorm: Value)

  /** `Student.new`: every field `nil`. */
  function New(): Student {
    Student(Nil, Nil, Nil)
  }

  /** Calling method `m` with no argument. `to_s` answers the sentence;
      `attr_accessor` readers answer their field; its writers need one
      argument; any other name raises NoMethodError (the methods every Ruby
      object inherits are not modelled). */
  function Get(s: Student, m: string): Result<Value> {
    if m == "to_s" then Ok(Str(ToS(s)))
    else if m == "name" then Ok(s.name)
    else if m == "major" then Ok(s.major)
    else if m == "dorm" then Ok(s.dorm)
    else if m == "name=" || m == "major=" || m == "dorm=" then Err(WrongArguments(m))
    else Err(NoMethod(m))
  }

  /** Calling method `m` with one argument `v`: the writers assign their
      field; `to_s` and the readers take no argument. */
  function Set(s: Student, m: string, v: Value): Result<Student> {
    if m == "name=" then Ok(s.(name := v))
    else if m == "major=" then Ok(s.(major := v))
    else if m == "dorm=" then Ok(s.(dorm := v))
    else if m == "to_s" || m == "name" || m == "major" || m == "dorm" then Err(WrongArguments(m))
    else Err(NoMethod(m))
  }

  /** `to_s`: "#{name}学生在学习#{major}，住在#{dorm}". */
  function ToS(s: Student): string {
    Render(s.name) + "学生在学习" + Render(s.major) + "，住在" + Render(s.dorm)
  }

  /** The reader names `attr_accessor :name, :major, :dorm` defines. */
  const Readers: set<string> := {"name", "major", "dorm"}

  /** Reading a field after writing it answers the value written. */
  lemma GetAfterSet(s: Student, field: string, v: Value)
    requires field in Readers
    ensures Set(s, field + "=", v).Ok?
    ensures Get(Set(s, field + "=", v).value, field) == Ok(v)
  {
    assert "name" + "=" == "name=" && "major" + "=" == "major=" && "dorm" + "=" == "dorm=";
  }

  /** Writing one field leaves the other two readers answering what they
      answered before. */
  lemma SetFrame(s: Student, field: string, other: string, v: Value)
    requires field in Readers && other in Readers && other != field
    ensures Set(s, field + "=", v).Ok?
    ensures Get(Set(s, field + "=", v).value, other) == Get(s, other)
  {
    assert "name" + "=" == "name=" && "major" + "=" == "major=" && "dorm" + "=" == "dorm=";
  }

  /** A fresh student's readers all answer `nil`. */
  lemma FreshIsNil(field: string)
    requires field in Readers
    ensures Get(New(), field) == Ok(Nil)
  {
  }

  /** The record a generated `Student` object corresponds to. */
  function FromInstance(o: Accessors.Instance): Student {
    Student(Accessors.Read(o, "@name"), Accessors.Read(o, "@major"), Accessors.Read(o, "@dorm"))
  }

  /** For every method name, a call without arguments on the generated
      class answers what it answers on the corresponding record. */
  lemma GettersAgree(o: Accessors.Instance, m: string)
    ensures Shuxing.Call(o, m) == Get(FromInstance(o), m)
  {
    ToSAgree(o);
  }

  /** For every method name and argument, a generated writer succeeds exactly
      when the `attr_accessor` writer does, raises the same exception when
      it fails, and leaves an object corresponding to the updated record. */
  lemma SettersAgree(o: Accessors.Instance, m: string, v: Value)
    ensures Shuxing.CallWith(o, m, v).Ok? <==> Set(FromInstance(o), m, v).Ok?
    ensures Shuxing.CallWith(o, m, v).Ok? ==>
              FromInstance(Shuxing.CallWith(o, m, v).value) == Set(FromInstance(o), m, v).value
    ensures Shuxing.CallWith(o, m, v).Err? ==>
              Shuxing.CallWith(o, m, v).error == Set(FromInstance(o), m, v).error
  {
  }

  /** Both `to_s` definitions render corresponding objects identically. */
  lemma ToSAgree(o: Accessors.Instance)
    ensures Shuxing.ToS(o) == ToS(FromInstance(o))
  {
  }

  /** A message sent to a student object. */
  datatype Message = Call0(name: string) | Call1(name: string, arg: Value) | ToString

  /** What a caller observes of one message. */
  datatype Observation = Answered(v: Value) | Assigned | Rendered(text: string) | Raised(e: Error)

  /** Sending messages in order to a generated `Student`; an exception ends
      the run. */
  function RunGenerated(o: Accessors.Instance, msgs: seq<Message>): seq<Observation>
    decreases |msgs|
  {
    if |msgs| == 0 then []
    else
      match msgs[0]
      case ToString => [Rendered(Shuxing.ToS(o))] + RunGenerated(o, msgs[1..])
      case Call0(m) =>
        (match Shuxing.Call(o, m)
         case Ok(v) => [Answered(v)] + RunGenerated(o, msgs[1..])
         case Err(e) => [Raised(e)])
      case Call1(m, v) =>
        (match Shuxing.CallWith(o, m, v)
         case Ok(o') => [Assigned] + RunGenerated(o', msgs[1..])
         case Err(e) => [Raised(e)])
  }

  /** Sending messages in order to an `attr_accessor` `Student`. */
  function RunDeclared(s: Student, msgs: seq<Message>): seq<Observation>
    decreases |msgs|
  {
    if |msgs| == 0 then []
    else
      match msgs[0]
      case ToString => [Rendered(ToS(s))] + RunDeclared(s, msgs[1..])
      case Call0(m) =>
        (match Get(s, m)
         case Ok(v) => [Answered(v)] + RunDeclared(s, msgs[1..])
         case Err(e) => [Raised(e)])
      case Call1(m, v) =>
        (match Set(s, m, v)
         case Ok(s') => [Assigned] + RunDeclared(s', msgs[1..])
         case Err(e) => [Raised(e)])
  }

  /** No sequence of messages tells the two `Student` classes apart: from
      corresponding objects they produce the same observations. */
  lemma {:induction false} IndistinguishableFromGenerated(o: Accessors.Instance, msgs: seq<Message>)
    ensures RunGenerated(o, msgs) == RunDeclared(FromInstance(o), msgs)
    decreases |msgs|
  {
    if |msgs| > 0 {
      match msgs[0]
      case ToString =>
        ToSAgree(o);
        IndistinguishableFromGenerated(o, msgs[1..]);
      case Call0(m) =>
        GettersAgree(o, m);
        IndistinguishableFromGenerated(o, msgs[1..]);
      case Call1(m, v) =>
        SettersAgree(o, m, v);
        if Shuxing.CallWith(o, m, v).Ok? {
          IndistinguishableFromGenerated(Shuxing.CallWith(o, m, v).value, msgs[1..]);
        }
    }
  }

  /** A fresh generated `Student` corresponds to a fresh declared one. */
  lemma FreshCorrespond()
    ensures FromInstance(Shuxing.New()) == New()
  {
  }

  /** Once all three fields hold strings, `to_s` is those strings joined by
      the sentence's fixed words. */
  lemma RenderAssigned(name: string, major: string, dorm: string)
    ensures ToS(Student(Str(name), Str(major), Str(dorm))) == name + "学生在学习" + major + "，住在" + dorm
  {
  }

  /** A fresh `Student` has every field `nil`, which interpolates as "", so
      only the fixed words remain. */
  lemma FreshToS()
    ensures ToS(New()) == "学生在学习，住在"
  {
  }

  /** The sentence printed for hao, put together from its parts. */
  lemma HaoSentence()
    ensures "好朋友" + "学生在学习" + "计算机科学" + "，住在" + "西区C座9楼304房"
            == "好朋友学生在学习计算机科学，住在西区C座9楼304房"
  {
  }

  /** The script: `hao.name = …; hao.dorm = …; hao.major = …; puts hao`. */
  function Script(): (t: Transcript)
    ensures t.out == ["好朋友学生在学习计算机科学，住在西区C座9楼304房"]
    ensures t.raised == None
  {
    var hao := Set(New(), "name=", Str("好朋友")).value;
    var hao := Set(hao, "dorm=", Str("西区C座9楼304房")).value;
    var hao := Set(hao, "major=", Str("计算机科学")).value;
    assert hao == Student(Str("好朋友"), Str("计算机科学"), Str("西区C座9楼304房"));
    RenderAssigned("好朋友", "计算机科学", "西区C座9楼304房");
    HaoSentence();
    Transcript([ToS(hao)], None)
  }
}

=== FILE: wrappers.dfy ===
/** Failure-carrying wrappers shared by every model: Ruby's `nil`-or-value
    results and the exceptions a script can raise. */
module Wrappers {

  /** A value that may be absent (`nil` in Ruby). */
  datatype Option<+T> = None | Some(value: T)

  /** The exceptions the scripts can raise. Messages are not modelled, only
      the kind of failure and, where Ruby names it, the method involved. */
  datatype Error =
    | UnknownOperator                 // RuntimeError "unknown operator"
    | ZeroDivision                    // ZeroDivisionError from Integer#/
    | NoMethod(name: string)          // NoMethodError
    | WrongArguments(name: string)    // ArgumentError (wrong number of arguments)
    | InvalidName(name: string)       // NameError (not an instance-variable name)

  /** Either the value an expression evaluates to or the exception it raises. */
  datatype Result<+T> = Ok(value: T) | Err(error: Error)
}
